=== FILE: README.md ===
# Self Bingo: the paid join and the bingo game, in Dafny

Self Bingo is a bingo web app. A player pays a small stablecoin entry fee to
join a round, then marks squares on a 5 x 5 card by verifying identity facts,
and wins with five verified squares in a line. This project models the two
parts of the app that carry logic, and proves what they promise.

- **The join endpoint** (`POST /api/game/join`). The handler reads an x402
  payment envelope from the `X-Payment` header. It checks the envelope against
  the server's recipient, network and entry fee. It then asks an external
  facilitator to verify the signed transfer (EIP-3009
  `transferWithAuthorization`) and then to settle it on chain. Every failure
  has its own response status. `Join.HandleJoin` is a pure function of:
  - the configuration;
  - the optional header;
  - what `JSON.parse` made of the header;
  - how each facilitator call ended.

  It returns the response together with a log of the facilitator calls it
  issued, in order.
- **The game.** This covers the five square states and a tap's effect on them,
  the delayed completion of a verification, and the win detector over the
  row-major card. It also covers the screen flow
  dashboard → payment → game → winner/result.

Modules: `Wrappers` (Option, Result), `Decimal` (entry fee to token units,
integer text), `Ascii` (lower-casing), `Join` (the endpoint),
`JoinProperties` (what the endpoint guarantees), `Card` (the card
component), `Board` (square operations of the page), `Win` (the win check),
`Home` (the page as a state machine).

Behaviour of the code that is easy to miss, and that the model keeps:
- An empty `X-Payment` header counts as missing (402), as does an empty
  recipient address (500).
- A header that parses to JSON `null` gets 500, not 400, because reading
  `null.network` throws and the outer handler catches it. So does an
  authorization whose `to` is not a string, because `toLowerCase` throws.
- An HTTP error from the facilitator gets the message default
  "Failed to verify payment" even when the settle call failed.
- A tap on a failed square reaches the handler but changes nothing.
- `route.ts:118` converts `parseFloat(fee) * 1_000_000` to text without
  rounding. The model computes the product exactly, so it reads only fees with
  integer digits and at most six fractional digits (see `Decimal.ExpectedAmount`).
- An error reply with status 304 cannot be forwarded. A JSON response may not
  carry that status, so building it throws, and the outer handler answers 500.
- A board with a verified square at index 25 or beyond makes the win check
  throw, so the screen does not change.

## Model

| member | source | states |
|---|---|---|
| Join.LoadConfig | SelfBingoApp/app/api/game/join/route.ts:38-41 | the recipient is taken as configured. A set, non-empty URL, network or fee is used as given. An unset or empty one falls back to "http://localhost:3005", "celo" or "0.01", so none is ever empty. The default fee requires the amount "10000" |
| Join.StatusOf | SelfBingoApp/app/api/game/join/route.ts:44-257 | the status of each outcome: 200 exactly for a join; 400 for malformed, incomplete or mismatched envelopes; 402 for a missing payment and failed verify or settle; 503 for an unreachable facilitator; 500 for configuration and unexpected errors; the facilitator's own status otherwise |
| Join.Validate | SelfBingoApp/app/api/game/join/route.ts:51-127 | an accepted envelope is the parsed one, unchanged. Its network equals the configured one, its recipient equals `payTo` up to letter case, and its amount is the expected fee text |
| Join.Caught | SelfBingoApp/app/api/game/join/route.ts:213-257 | a refused connection becomes 503 naming the facilitator URL. An error response forwards its status, body and error text, except that a status that cannot carry a body (304) becomes 500. Any other failure becomes 500 |
| Join.Facilitate | SelfBingoApp/app/api/game/join/route.ts:131-212 | verify is always called first, with the envelope's authorization, signature and network. Settle is called, with the same payload, exactly when verify replied `valid` |
| Join.HandleJoin | SelfBingoApp/app/api/game/join/route.ts:33-259 | without a recipient the result is 500 with no call. Settle is issued only second and only after a valid verification. A join implies both calls succeeded |
| JoinProperties.FacilitatorCalledIffAcceptable | SelfBingoApp/app/api/game/join/route.ts:84-136 | the facilitator is called exactly when a field-by-field description holds: header present, complete JSON envelope, equal network, case-insensitively equal recipient, and an amount that is the canonical integer text of the fee in millionths |
| JoinProperties.JoinedIff | SelfBingoApp/app/api/game/join/route.ts:177-212 | success (200) exactly when the local checks pass, verify is valid and settle succeeds. The response's player is `authorization.from`, its amount and entry fee are the configured fee, its transaction, block number and explorer link are the settlement's |
| JoinProperties.MissingRecipientIsConfigurationError | SelfBingoApp/app/api/game/join/route.ts:43-49 | no recipient gives 500 and no call, whatever the header, parse outcome and facilitator results |
| JoinProperties.MissingHeaderIsPaymentRequired | SelfBingoApp/app/api/game/join/route.ts:51-67 | a missing header gives 402 echoing price = entry fee, the network and `payTo`, with no call |
| JoinProperties.StructuralChecksFirst | SelfBingoApp/app/api/game/join/route.ts:69-93 | non-JSON gives 400 with the parse reason, and an envelope missing network, authorization or signature gives 400. Neither depends on the configured network or fee |
| JoinProperties.NetworkCheckedBeforeRecipientAndAmount | SelfBingoApp/app/api/game/join/route.ts:95-104 | a network mismatch gives 400 naming both networks, whatever the authorization and fee |
| JoinProperties.RecipientCaseInsensitive | SelfBingoApp/app/api/game/join/route.ts:106-115 | with the right network, the answer is "wrong recipient" (400) exactly when `to` and `payTo` are not equal up to letter case |
| JoinProperties.AmountMustMatchFee | SelfBingoApp/app/api/game/join/route.ts:117-127 | with network and recipient right, the amount is accepted exactly when it is the canonical integer text of the fee in millionths. Otherwise the answer is 400 carrying expected and received amounts |
| JoinProperties.DefaultFeeAcceptsOnlyTenThousand | SelfBingoApp/app/api/game/join/route.ts:117-127 | with fee "0.01" the only accepted amount is "10000" |
| JoinProperties.ThrowsBeforeFacilitatorAreInternalErrors | SelfBingoApp/app/api/game/join/route.ts:84-107 | a header that parses to `null`, or an authorization whose `to` is not a string, makes the handler throw; the outer handler answers 500 and the facilitator is never called |
| JoinProperties.FailedVerificationNeverSettles | SelfBingoApp/app/api/game/join/route.ts:149-159 | absent data or `valid` false gives 402, carries the facilitator's error text and its data as details, and settle is never called |
| JoinProperties.FailedSettlementIsPaymentRequired | SelfBingoApp/app/api/game/join/route.ts:168-187 | after a valid verification the same payload is settled. Absent data or `success` false gives 402 carrying the facilitator's error text and its data as details |
| JoinProperties.TransportFailureMapping | SelfBingoApp/app/api/game/join/route.ts:213-257 | a transport failure of either call: refused gives 503 with the URL. An error response forwards its status and body, except 304, which gives 500. Anything else gives 500. The log shows which call it was |
| JoinProperties.VerifyRefusedIsUnavailable | SelfBingoApp/app/api/game/join/route.ts:216-226 | a refused verify call gives 503 with the configured facilitator URL, after exactly one call |
| Decimal.NatToString | SelfBingoApp/app/api/game/join/route.ts:118 | the integer text is canonical (digits, no leading zero) and reads back as the same number |
| Decimal.CanonicalRoundTrip | SelfBingoApp/app/api/game/join/route.ts:118-119 | every canonical digit string is the text of its value |
| Decimal.TextOfIff | SelfBingoApp/app/api/game/join/route.ts:118-119 | a string equals the text of n exactly when it is canonical with value n. So "010000" does not match 10000 |
| Decimal.ParseUsdDecimal | SelfBingoApp/app/api/game/join/route.ts:118 | a fee written `whole.frac` (at most six fractional digits) is read as whole units plus the fraction, in millionths |
| Decimal.ExpectedAmount | SelfBingoApp/app/api/game/join/route.ts:118 | defined exactly when the fee is read. Its value is the canonical text of the fee in millionths |
| Decimal.ParseUsdWhole | SelfBingoApp/app/api/game/join/route.ts:118 | a fee written with digits only is that many whole units, in millionths |
| Decimal.ParseUsdDomain | SelfBingoApp/app/api/game/join/route.ts:118 | a fee is read exactly when it is digits only, or digits, one point and at most six digits; every other fee is rejected |
| Decimal.FormatParseRoundTrip | SelfBingoApp/app/api/game/join/route.ts:118 | reading a fee back from its six-decimal rendering gives the same number of millionths |
| Decimal.DefaultFeeAmount | SelfBingoApp/app/api/game/join/route.ts:118 | "0.01" is 10000 millionths, written "10000" |
| Ascii.ToLowerEqualIff | SelfBingoApp/app/api/game/join/route.ts:107 | lower-cased strings are equal exactly when the strings are equal up to letter case |
| Ascii.LowerCharIff | SelfBingoApp/app/api/game/join/route.ts:107 | the same, for one character |
| Card.ExactlyFiveStates | SelfBingoApp/components/BingoCard.tsx:3 | a square state is one of five distinct values |
| Card.SquareClassInjective | SelfBingoApp/components/BingoCard.tsx:17-30 | the class mapping gives each of the five states a class of its own |
| Card.OnClick | SelfBingoApp/components/BingoCard.tsx:36-40 | the free square (index 12) never reports a click. Any other square reports its own id |
| Card.Tap | SelfBingoApp/components/BingoCard.tsx:36-41 | a tap reports an id exactly when the square is not the free space and is default, selected or failed. Disabled means free, verified or verifying |
| Board.Advance | SelfBingoApp/app/page.tsx:72-87 | a tap moves default to selected and selected to verifying. It leaves verifying, verified and failed alone, and never verifies or fails a square |
| Board.Click | SelfBingoApp/app/page.tsx:71-88 | only squares with the tapped id change, each by one tap step. All others are unchanged, and the length is kept |
| Board.CompleteVerification | SelfBingoApp/app/page.tsx:78-81 | exactly the squares with that id become verified. Every other square is unchanged |
| Board.VerifiedCount | SelfBingoApp/app/page.tsx:135 | the verified count never exceeds the number of squares |
| Board.VerifiedCountIsCardinality | SelfBingoApp/app/page.tsx:135 | the verified count is the number of squares in state verified |
| Board.ClickKeepsVerified | SelfBingoApp/app/page.tsx:71-88 | a tap neither adds nor removes a verified square |
| Board.CompletionAddsItsSquares | SelfBingoApp/app/page.tsx:78-81 | a completion adds exactly the squares carrying its id to the verified set. The count never drops |
| Board.InitialBoardShape | SelfBingoApp/app/page.tsx:28-54 | the initial board has 25 squares, only index 12 is verified, and its id "free" is not shared |
| Win.IndexToCell | SelfBingoApp/app/page.tsx:95-101 | square idx is marked exactly when the cell in row idx / 5 and column idx % 5 is |
| Win.CheckForBingo | SelfBingoApp/app/page.tsx:90-118 | the source's loops (grid fill, rows, columns, both diagonals) throw exactly when a square at index 25 or beyond is verified. Otherwise they return true exactly when a full row, full column, the main diagonal or the anti-diagonal is verified |
| Win.BingoNeedsFive | SelfBingoApp/app/page.tsx:103-117 | a bingo implies at least five verified squares |
| Win.NoBingoBelowFive | SelfBingoApp/app/page.tsx:103-117 | fewer than five verified squares (an empty card, four in a row) is never a bingo |
| Win.InitialBoardNoBingo | SelfBingoApp/app/page.tsx:28-54 | the initial card is not a win |
| Win.FullBoardBingo | SelfBingoApp/app/page.tsx:103-106 | a fully verified card is a win |
| Win.DiagonalAloneBingo | SelfBingoApp/app/page.tsx:113-114 | the main diagonal alone is a win |
| Home.StepMovesScreen | SelfBingoApp/app/page.tsx:56-133 | join moves dashboard to payment, pay moves payment to game, and continue moves result to game. The winner screen is entered exactly by a check that completes on a card with a bingo, the result screen exactly by one on a card without. No other screen change exists |
| Home.WinnerIsFinal | SelfBingoApp/app/page.tsx:178-184 | on the winner screen only a pending verification can still fire, and the screen stays |
| Home.InitialValid | SelfBingoApp/app/page.tsx:17-54 | the page starts with 25 squares, the free square verified and its id unshared |
| Home.StepPreservesValid | SelfBingoApp/app/page.tsx:71-88 | every event keeps 25 squares and the free square verified. Every verifying square keeps a pending completion |
| Home.VerifiedStaysVerified | SelfBingoApp/app/page.tsx:71-88 | a verified square is never un-verified |
| Home.ProgressNeverDecreases | SelfBingoApp/app/page.tsx:135 | the verified count shown never goes down and stays within the card |
| Home.HandleCheckWin | SelfBingoApp/app/page.tsx:120-129 | checking for a win goes to the winner screen exactly on a bingo, otherwise to the result screen. When the detector throws, nothing changes. The board is untouched |

## Left out

- Environment reads: the configuration is a record. `Join.LoadConfig` builds it from the optional variable values.
- `console.log`, construction of the `NextResponse`, and the fixed `error`/`message` texts of the responses. The outcome carries the data each response echoes and the facilitator text it forwards.
- The axios transport: request headers, and the 10 s and 30 s timeouts. A timeout is one of the "other" transport failures (500).
- `JSON.parse` internals: the parse outcome is an input.
  - `network`, `authorization` and `signature` are `None` when absent or falsy.
  - `authorization.to` and `authorization.value` are `None` when absent or not a string. So `to == ""` is compared and gets 400.
  - A non-string truthy `network` is indistinguishable from an unequal string.
  - An error reply's body is kept as JSON text.
- The 500 body's development-only `details` text.
- Decimal.ExpectedAmount: the source computes `parseFloat(fee) * 1_000_000` in floating point. The model uses the exact decimal instead. A fee is read only when it has one or more integer digits, then optionally a point and at most six digits; for any other fee no amount is accepted. So a fee such as ".5", which `parseFloat` reads as 0.5, accepts no amount. `parseFloat` would instead read a numeric prefix, accept signs and exponents, or give `NaN`.
- Decimal.NatToString: JavaScript writes integers of 10^21 and above in exponent form; the model does not.
- Ascii.ToLower: folds only the ASCII letters. `toLowerCase` also folds other scripts, which hexadecimal addresses do not use.
- `Join.Transport`: an error response's status is limited to 300–599. The HTTP client rejects only non-2xx replies.
- Signature checking and on-chain settlement: the facilitator does them, so they are inputs. Nonce replay is the chain's concern.
- Session creation after a successful join is a TODO in the source, so it is not modelled.
- The 2-second `setTimeout` of a verification: only its effect is kept, as the `VerificationDone` event. Squares sharing an id that are selected together schedule one timer each in the source. The model records one pending completion per tap, which has the same effect on the board.
- `handleConnectWallet` and `walletConnected`: the payment screen never calls or reads them.
- The opening of the verification modal when a selected square is tapped, which is view state.
- The view components, the prize split `(prizeAmount / winnersCount).toFixed(2)` (floating-point formatting), the wallet configuration and the layout: no logic to model.

=== FILE: ascii.dfy ===
/**
  Letter case for the recipient check of the join endpoint, which compares
  addresses after `toLowerCase`. Addresses are hexadecimal ASCII, so only the
  ASCII letters are folded here.
 */
module Ascii {

  predicate IsUpper(c: char) {
    'A' <= c <= 'Z'
  }

  predicate IsLower(c: char) {
    'a' <= c <= 'z'
  }

  function LowerChar(c: char): (r: char)
    ensures !IsUpper(r)
    ensures IsUpper(c) ==> IsLower(r)
  {
    if IsUpper(c) then (c as int + 32) as char else c
  }

  function ToLower(s: string): (r: string)
    ensures |r| == |s|
    ensures forall i :: 0 <= i < |s| ==> r[i] == LowerChar(s[i])
  {
    if |s| == 0 then [] else [LowerChar(s[0])] + ToLower(s[1..])
  }

  /** Two characters are the same letter in either case, or simply equal. */
  predicate SameIgnoringCase(a: char, b: char) {
    || a == b
    || (IsUpper(a) && b as int == a as int + 32)
    || (IsUpper(b) && a as int == b as int + 32)
  }

  predicate EqualIgnoringCase(a: string, b: string) {
    |a| == |b| && forall i :: 0 <= i < |a| ==> SameIgnoringCase(a[i], b[i])
  }

  lemma LowerCharIff(a: char, b: char)
    ensures LowerChar(a) == LowerChar(b) <==> SameIgnoringCase(a, b)
  {
  }

  /**
    Comparing lower-cased strings is exactly case-insensitive equality: strings
    that differ only in letter case compare equal, and any other difference
    (another character, another length) does not.
   */
  lemma ToLowerEqualIff(a: string, b: string)
    ensures ToLower(a) == ToLower(b) <==> EqualIgnoringCase(a, b)
  {
    if ToLower(a) == ToLower(b) {
      forall i | 0 <= i < |a|
        ensures SameIgnoringCase(a[i], b[i])
      {
        assert ToLower(a)[i] == ToLower(b)[i];
        LowerCharIff(a[i], b[i]);
      }
    }
    if EqualIgnoringCase(a, b) {
      forall i | 0 <= i < |a|
        ensures ToLower(a)[i] == ToLower(b)[i]
      {
        LowerCharIff(a[i], b[i]);
      }
    }
  }
}

=== FILE: board.dfy ===
/**
  The squares of the home page: the board a player starts with, what a tap
  does to a square, the verification that completes later, and the verified
  count shown on the progress panel.
 */
module Board {
  import opened Card

  /** The board every game starts with: only the free centre square is verified. */
  const InitialBoard: seq<Square> := [
    Square("1", "Age 25+", Default),
    Square("2", "From Europe", Default),
    Square("3", "Not from USA", Default),
    Square("4", "Passport valid 6+ months", Default),
    Square("5", "Born in 1990s", Default),
    Square("6", "Gender: Male", Default),
    Square("7", "Issued in home country", Default),
    Square("8", "Age 18-30", Default),
    Square("9", "From Asia", Default),
    Square("10", "Not on OFAC list", Default),
    Square("11", "Born after 2000", Default),
    Square("12", "Has valid passport", Default),
    Square("free", "FREE", Verified),
    Square("14", "From Africa", Default),
    Square("15", "Age 30+", Default),
    Square("16", "Not from sanctioned country", Default),
    Square("17", "Gender: Female", Default),
    Square("18", "From South America", Default),
    Square("19", "Passport expires 2026+", Default),
    Square("20", "Born before 1995", Default),
    Square("21", "From Oceania", Default),
    Square("22", "Age 21+", Default),
    Square("23", "From North America", Default),
    Square("24", "Gender: Other", Default),
    Square("25", "Born in 2000s", Default)
  ]

  /** How far a square has come towards verification; `Failed` is off the path. */
  function Progress(s: SquareState): (p: nat) {
    match s
    case Default => 0
    case Selected => 1
    case Verifying => 2
    case Verified => 3
    case Failed => 0
  }

  /**
    The effect of a tap on a square's state: one step along default, selected,
    verifying; a verifying, verified or failed square stays as it is. A tap
    never verifies a square nor fails it.
   */
  function Advance(s: SquareState): (r: SquareState)
    ensures r == s <==> s in {Verifying, Verified, Failed}
    ensures r != s ==> Progress(r) == Progress(s) + 1 && r in {Selected, Verifying}
    ensures r == Verified <==> s == Verified
    ensures r == Failed <==> s == Failed
  {
    match s
    case Default => Selected
    case Selected => Verifying
    case _ => s
  }

  /** The board after the square(s) with id `id` are tapped. */
  function Click(squares: seq<Square>, id: string): (r: seq<Square>)
    ensures |r| == |squares|
    ensures forall i :: 0 <= i < |squares| && squares[i].id != id ==> r[i] == squares[i]
    ensures forall i :: 0 <= i < |squares| && squares[i].id == id ==>
      r[i] == squares[i].(state := Advance(squares[i].state))
  {
    if |squares| == 0 then []
    else
      var sq := squares[0];
      [if sq.id == id then sq.(state := Advance(sq.state)) else sq] + Click(squares[1..], id)
  }

  /** A tap on a selected square starts a verification that completes later. */
  predicate StartsVerification(squares: seq<Square>, id: string) {
    exists i :: 0 <= i < |squares| && squares[i].id == id && squares[i].state == Selected
  }

  /** The board once the verification started for `id` has completed. */
  function CompleteVerification(squares: seq<Square>, id: string): (r: seq<Square>)
    ensures |r| == |squares|
    ensures forall i :: 0 <= i < |squares| && squares[i].id != id ==> r[i] == squares[i]
    ensures forall i :: 0 <= i < |squares| && squares[i].id == id ==>
      r[i] == squares[i].(state := Verified)
  {
    if |squares| == 0 then []
    else
      var sq := squares[0];
      [if sq.id == id then sq.(state := Verified) else sq] + CompleteVerification(squares[1..], id)
  }

  /** The indices of the verified squares. */
  function VerifiedSet(squares: seq<Square>): set<nat> {
    set i: nat | i < |squares| && squares[i].state == Verified
  }

  /** The number shown as the player's progress. */
  function VerifiedCount(squares: seq<Square>): (n: nat)
    ensures n <= |squares|
  {
    if |squares| == 0 then 0
    else VerifiedCount(squares[..|squares| - 1]) + (if squares[|squares| - 1].state == Verified then 1 else 0)
  }

  /** The verified count is the number of verified squares. */
  lemma {:induction false} VerifiedCountIsCardinality(squares: seq<Square>)
    ensures VerifiedCount(squares) == |VerifiedSet(squares)|
  {
    if |squares| > 0 {
      var n := |squares| - 1;
      var init := squares[..n];
      VerifiedCountIsCardinality(init);
      if squares[n].state == Verified {
        assert VerifiedSet(squares) == VerifiedSet(init) + {n};
      } else {
        assert VerifiedSet(squares) == VerifiedSet(init);
      }
    }
  }

  /** A tap neither adds nor removes a verified square. */
  lemma ClickKeepsVerified(squares: seq<Square>, id: string)
    ensures VerifiedSet(Click(squares, id)) == VerifiedSet(squares)
    ensures VerifiedCount(Click(squares, id)) == VerifiedCount(squares)
  {
    VerifiedCountIsCardinality(squares);
    VerifiedCountIsCardinality(Click(squares, id));
  }

  /** A completed verification adds exactly the squares with that id. */
  lemma CompletionAddsItsSquares(squares: seq<Square>, id: string)
    ensures VerifiedSet(CompleteVerification(squares, id)) ==
      VerifiedSet(squares) + (set i: nat | i < |squares| && squares[i].id == id)
    ensures VerifiedCount(CompleteVerification(squares, id)) >= VerifiedCount(squares)
  {
    var r := CompleteVerification(squares, id);
    var ids := set i: nat | i < |squares| && squares[i].id == id;
    forall i: nat
      ensures i in VerifiedSet(r) <==> i in VerifiedSet(squares) || i in ids
    {
      if i < |squares| && squares[i].id == id {
        assert r[i].state == Verified;
      }
    }
    assert VerifiedSet(r) == VerifiedSet(squares) + ids;
    VerifiedCountIsCardinality(squares);
    VerifiedCountIsCardinality(r);
    var added := ids - VerifiedSet(squares);
    assert VerifiedSet(r) == VerifiedSet(squares) + added;
    assert VerifiedSet(squares) * added == {};
  }

  /** On the initial board the free centre square is the only verified one. */
  lemma InitialStates()
    ensures |InitialBoard| == 25
    ensures forall i :: 0 <= i < 25 ==> (InitialBoard[i].state == Verified <==> i == FreeSpace)
  {
    forall i | 0 <= i < 25
      ensures InitialBoard[i].state == Verified <==> i == FreeSpace
    {
      if i < FreeSpace {
        assert InitialBoard[..FreeSpace][i] == InitialBoard[i];
      } else if i > FreeSpace {
        assert InitialBoard[FreeSpace + 1..][i - FreeSpace - 1] == InitialBoard[i];
      }
    }
  }

  /**
    The initial board has 25 squares, only the free centre square is verified,
    and no other square shares its id.
   */
  lemma InitialBoardShape()
    ensures |InitialBoard| == 25
    ensures forall i :: 0 <= i < 25 ==> (InitialBoard[i].state == Verified <==> i == FreeSpace)
    ensures forall i :: 0 <= i < 25 && i != FreeSpace ==> InitialBoard[i].id != InitialBoard[FreeSpace].id
    ensures VerifiedSet(InitialBoard) == {FreeSpace}
    ensures VerifiedCount(InitialBoard) == 1
  {
    InitialStates();
    assert forall i :: 0 <= i < 25 && i != FreeSpace ==> InitialBoard[i].id != "free";
    assert VerifiedSet(InitialBoard) == {FreeSpace};
    VerifiedCountIsCardinality(InitialBoard);
  }
}

=== FILE: card.dfy ===
/**
  The bingo card component: the five states a square can be in, the styling
  each state gets, and which squares react to a tap. The card lays the 25
  squares out row-major; index 12 is the free centre square.
 */
module Card {
  import opened Wrappers

  datatype SquareState = Default | Selected | Verifying | Verified | Failed

  /** The states, each listed once. */
  const AllStates: seq<SquareState> := [Default, Selected, Verifying, Verified, Failed]

  lemma ExactlyFiveStates(s: SquareState)
    ensures |AllStates| == 5 && s in AllStates
    ensures forall i, j :: 0 <= i < j < |AllStates| ==> AllStates[i] != AllStates[j]
  {
  }

  datatype Square = Square(id: string, question: string, state: SquareState)

  /** The index of the free centre square. */
  const FreeSpace: nat := 12

  /** The style classes a square gets for its state. */
  function SquareClass(s: SquareState): (c: string) {
    match s
    case Selected => "bg-primary text-foreground"
    case Verifying => "bg-[#1A0329] text-white animate-pulse"
    case Verified => "bg-secondary text-secondary-foreground"
    case Failed => "bg-destructive text-destructive-foreground"
    case Default => "bg-white text-black hover-elevate active-elevate-2"
  }

  /** Every state has a class of its own. */
  lemma SquareClassInjective(a: SquareState, b: SquareState)
    ensures SquareClass(a) == SquareClass(b) <==> a == b
  {
    if a != b {
      assert |SquareClass(a)| != |SquareClass(b)|;
    }
  }

  /** The button of square `index` is disabled. */
  predicate Disabled(index: nat, s: SquareState) {
    index == FreeSpace || s == Verified || s == Verifying
  }

  /** The click handler of square `index`: the free space never reports a click. */
  function OnClick(index: nat, square: Square): (r: Option<string>)
    ensures r.None? <==> index == FreeSpace
    ensures r.Some? ==> r.value == square.id
  {
    if index == FreeSpace then None else Some(square.id)
  }

  /**
    A tap on square `index`: a disabled button does nothing, an enabled one
    reports its square's id.
   */
  function Tap(squares: seq<Square>, index: nat): (r: Option<string>)
    requires index < |squares|
    ensures r.Some? <==> index != FreeSpace && squares[index].state in {Default, Selected, Failed}
    ensures r.Some? ==> r.value == squares[index].id
  {
    if Disabled(index, squares[index].state) then None else OnClick(index, squares[index])
  }
}

=== FILE: decimal.dfy ===
/**
  Decimal strings and the entry-fee conversion of the join endpoint: the fee
  is a decimal amount of USD, and the token amount a payment must carry is the
  same amount in millionths (the token has six decimals), written as an
  integer string. The source computes it with floating point; here it is
  exact.
 */
module Decimal {
  import opened Wrappers

  /** Millionths per unit: the token has six decimals. */
  const Micro: nat := 1_000_000

  predicate IsDigit(c: char) {
    '0' <= c <= '9'
  }

  predicate AllDigits(s: string) {
    forall i :: 0 <= i < |s| ==> IsDigit(s[i])
  }

  /** A digit string as an integer's `toString` writes it: non-empty, no leading zero. */
  predicate Canonical(s: string) {
    |s| >= 1 && AllDigits(s) && (s[0] == '0' ==> |s| == 1)
  }

  function DigitValue(c: char): nat
    requires IsDigit(c)
  {
    c as int - '0' as int
  }

  function DigitChar(d: nat): (c: char)
    requires d < 10
    ensures IsDigit(c) && DigitValue(c) == d
  {
    ('0' as int + d) as char
  }

  /** The value of a digit string, most significant digit first. */
  function DigitsValue(s: string): nat
    requires AllDigits(s)
  {
    if |s| == 0 then 0 else DigitsValue(s[..|s| - 1]) * 10 + DigitValue(s[|s| - 1])
  }

  function Pow10(k: nat): (r: nat)
    ensures r >= 1
  {
    if k == 0 then 1 else 10 * Pow10(k - 1)
  }

  /** The decimal text of a non-negative integer, as `Number.prototype.toString` gives it. */
  function NatToString(n: nat): (s: string)
    ensures Canonical(s)
    ensures DigitsValue(s) == n
  {
    if n < 10 then [DigitChar(n)]
    else
      var s := NatToString(n / 10) + [DigitChar(n % 10)];
      assert s[..|s| - 1] == NatToString(n / 10);
      s
  }

  lemma {:induction false} LeadingDigitPositive(s: string)
    requires AllDigits(s) && |s| >= 1 && s[0] != '0'
    ensures DigitsValue(s) >= 1
  {
    if |s| > 1 {
      LeadingDigitPositive(s[..|s| - 1]);
    }
  }

  /** Every canonical digit string is the text of its own value. */
  lemma {:induction false} CanonicalRoundTrip(s: string)
    requires Canonical(s)
    ensures NatToString(DigitsValue(s)) == s
  {
    if |s| > 1 {
      var t := s[..|s| - 1];
      var d := DigitValue(s[|s| - 1]);
      LeadingDigitPositive(t);
      CanonicalRoundTrip(t);
      assert DigitsValue(s) == DigitsValue(t) * 10 + d;
      assert DigitsValue(s) / 10 == DigitsValue(t) && DigitsValue(s) % 10 == d;
      assert DigitChar(d) == s[|s| - 1];
      assert s == t + [s[|s| - 1]];
    }
  }

  /**
    A string equals the text of `n` exactly when it is a canonical digit
    string of value `n`: "010000" and "10000.0" do not match 10000.
   */
  lemma TextOfIff(v: string, n: nat)
    ensures v == NatToString(n) <==> Canonical(v) && DigitsValue(v) == n
  {
    if Canonical(v) && DigitsValue(v) == n {
      CanonicalRoundTrip(v);
    }
  }

  function IndexOf(s: string, c: char): (r: Option<nat>)
    ensures r.Some? ==> r.value < |s| && s[r.value] == c && c !in s[..r.value]
    ensures r.None? ==> c !in s
  {
    if |s| == 0 then None
    else if s[0] == c then Some(0)
    else match IndexOf(s[1..], c)
      case None => None
      case Some(k) => assert s[1..][..k] == s[1..k + 1]; Some(k + 1)
  }

  /**
    The amount of a decimal USD string in millionths: one or more integer
    digits, optionally a point followed by at most six digits. Anything else
    is not a fee.
   */
  function ParseUsd(s: string): (r: Option<nat>) {
    match IndexOf(s, '.')
    case None =>
      if |s| >= 1 && AllDigits(s) then Some(DigitsValue(s) * Micro) else None
    case Some(dot) => ReadDecimal(s[..dot], s[dot + 1..])
  }

  /** The amount of `whole.frac` in millionths. */
  function ReadDecimal(whole: string, frac: string): Option<nat> {
    if |whole| >= 1 && AllDigits(whole) && AllDigits(frac) && |frac| <= 6
    then Some(DecimalValue(DigitsValue(whole), DigitsValue(frac), |frac|))
    else None
  }

  /** `units` and `fraction` / 10^digits, in millionths. */
  function DecimalValue(units: nat, fraction: nat, digits: nat): nat
    requires digits <= 6
  {
    units * Micro + fraction * Pow10(6 - digits)
  }

  /** The amount, as an integer string of millionths, a payment of fee `fee` must carry. */
  function ExpectedAmount(fee: string): (r: Option<string>)
    ensures r.Some? <==> ParseUsd(fee).Some?
    ensures r.Some? ==> Canonical(r.value) && DigitsValue(r.value) == ParseUsd(fee).value
  {
    match ParseUsd(fee)
    case None => None
    case Some(m) => Some(NatToString(m))
  }

  function Zeros(k: nat): (z: string)
    ensures |z| == k && AllDigits(z)
  {
    if k == 0 then [] else Zeros(k - 1) + ['0']
  }

  lemma {:induction false} ZeroPaddedValue(k: nat, s: string)
    requires AllDigits(s)
    ensures DigitsValue(Zeros(k) + s) == DigitsValue(s)
  {
    if |s| == 0 {
      assert Zeros(k) + s == Zeros(k);
      ZerosValue(k);
    } else {
      var t := s[..|s| - 1];
      assert (Zeros(k) + s)[..|Zeros(k) + s| - 1] == Zeros(k) + t;
      ZeroPaddedValue(k, t);
    }
  }

  lemma {:induction false} ZerosValue(k: nat)
    ensures DigitsValue(Zeros(k)) == 0
  {
    if k > 0 {
      assert Zeros(k)[..k - 1] == Zeros(k - 1);
      ZerosValue(k - 1);
    }
  }

  /** An amount of millionths written as a USD decimal with exactly six fractional digits. */
  function FormatUsd(m: nat): (s: string)
    ensures |s| >= 8 && AllDigits(s[..|s| - 7]) && s[|s| - 7] == '.'
  {
    var frac := NatToString(m % Micro);
    assert |frac| <= 6 by { SmallTextShort(m % Micro, 6); }
    NatToString(m / Micro) + "." + Zeros(6 - |frac|) + frac
  }

  lemma {:induction false} SmallTextShort(n: nat, k: nat)
    requires k >= 1 && n < Pow10(k)
    ensures |NatToString(n)| <= k
  {
    if n >= 10 {
      assert k >= 2;
      assert n / 10 < Pow10(k - 1);
      SmallTextShort(n / 10, k - 1);
    }
  }

  /** The first `c` in `a + [c] + b` is the one after `a` when `a` has none. */
  lemma {:induction false} IndexOfFirst(a: string, b: string, c: char)
    requires c !in a
    ensures IndexOf(a + [c] + b, c) == Some(|a|)
  {
    if |a| > 0 {
      assert (a + [c] + b)[1..] == a[1..] + [c] + b;
      IndexOfFirst(a[1..], b, c);
    }
  }

  /** How a fee with a decimal point is read: integer part in units, fraction in millionths. */
  lemma ParseUsdDecimal(whole: string, frac: string)
    requires |whole| >= 1 && AllDigits(whole) && AllDigits(frac) && |frac| <= 6
    ensures ParseUsd(whole + "." + frac) == ReadDecimal(whole, frac)
    ensures ReadDecimal(whole, frac).Some?
  {
    var s := whole + "." + frac;
    assert '.' !in whole by {
      forall i | 0 <= i < |whole| ensures whole[i] != '.' {
        assert IsDigit(whole[i]);
      }
    }
    IndexOfFirst(whole, frac, '.');
    assert s[..|whole|] == whole;
    assert s[|whole| + 1..] == frac;
  }

  /** How a fee without a point is read: whole units. */
  lemma ParseUsdWhole(whole: string)
    requires |whole| >= 1 && AllDigits(whole)
    ensures ParseUsd(whole) == Some(DigitsValue(whole) * Micro)
  {
    assert '.' !in whole by {
      forall i | 0 <= i < |whole| ensures whole[i] != '.' {
        assert IsDigit(whole[i]);
      }
    }
  }

  /**
    The fees the conversion reads, described by their shape: digits only, or
    digits, one point and at most six digits.
   */
  predicate IsFeeText(s: string) {
    || (|s| >= 1 && AllDigits(s))
    || exists k :: 1 <= k < |s| && s[k] == '.' && AllDigits(s[..k]) && AllDigits(s[k + 1..]) && |s| - k - 1 <= 6
  }

  /** A fee is read exactly when it has the shape of `IsFeeText`; anything else is rejected. */
  lemma ParseUsdDomain(s: string)
    ensures ParseUsd(s).Some? <==> IsFeeText(s)
  {
    match IndexOf(s, '.')
    case None =>
    case Some(dot) =>
      assert !AllDigits(s) by { assert !IsDigit(s[dot]); }
      if ParseUsd(s).Some? {
        assert 1 <= dot && AllDigits(s[..dot]) && AllDigits(s[dot + 1..]);
      }
      if IsFeeText(s) {
        var k :| 1 <= k < |s| && s[k] == '.' && AllDigits(s[..k]) && AllDigits(s[k + 1..]) && |s| - k - 1 <= 6;
        forall j | 0 <= j < dot ensures s[j] != '.' {
          assert s[..dot][j] == s[j];
        }
        forall j | 0 <= j < k ensures s[j] != '.' {
          assert IsDigit(s[..k][j]);
        }
        assert k == dot;
      }
  }

  /** Reading back a formatted amount gives the amount: ParseUsd inverts FormatUsd. */
  lemma FormatParseRoundTrip(m: nat)
    ensures ParseUsd(FormatUsd(m)) == Some(m)
  {
    var whole := NatToString(m / Micro);
    var frac := NatToString(m % Micro);
    SmallTextShort(m % Micro, 6);
    var padded := Zeros(6 - |frac|) + frac;
    assert FormatUsd(m) == whole + "." + padded;
    ParseUsdDecimal(whole, padded);
    ZeroPaddedValue(6 - |frac|, frac);
    assert DecimalValue(m / Micro, m % Micro, 6) == m;
  }

  /** The default fee "0.01" is 10000 millionths, written "10000". */
  lemma DefaultFeeAmount()
    ensures ParseUsd("0.01") == Some(10000)
    ensures ExpectedAmount("0.01") == Some("10000")
  {
    assert "0.01" == "0" + "." + "01";
    ParseUsdDecimal("0", "01");
    assert DigitsValue("01") == 1 by {
      assert "01"[..1] == "0";
    }
    assert Pow10(4) == 10000 by {
      assert Pow10(2) == 100;
    }
    assert DecimalValue(0, 1, 2) == 10000;
    assert NatToString(1) == "1";
    assert NatToString(10) == "10";
    assert NatToString(100) == "100";
    assert NatToString(1000) == "1000";
    assert NatToString(10000) == "10000";
  }
}

=== FILE: home.dfy ===
/**
  The home page as a state machine: which screen is shown, the player's
  board, and the verifications that are still running. Each event is one of
  the page's handlers; an event is enabled when the screen on show wires its
  handler (or, for a running verification, when its timer is pending).
 */
module Home {
  import opened Card
  import Board
  import Win

  datatype Screen = Dashboard | Payment | Game | Result | Winner

  /** `pending` holds the id of every verification whose delayed completion has not fired yet. */
  datatype App = App(screen: Screen, squares: seq<Square>, pending: multiset<string>)

  datatype Event =
    | JoinGame
    | Pay
    | TapSquare(index: nat)
    | VerificationDone(id: string)
    | CheckWin
    | ContinuePlaying

  const Initial: App := App(Dashboard, Board.InitialBoard, multiset{})

  predicate Enabled(app: App, e: Event) {
    match e
    case JoinGame => app.screen == Dashboard
    case Pay => app.screen == Payment
    case TapSquare(i) => app.screen == Game && i < |app.squares|
    case VerificationDone(id) => id in app.pending
    case CheckWin => app.screen == Game
    case ContinuePlaying => app.screen == Result
  }

  /** What the handler of `e` does to the page. */
  function Step(app: App, e: Event): (next: App)
    requires Enabled(app, e)
  {
    match e
    case JoinGame => app.(screen := Payment)
    case Pay => app.(screen := Game)
    case TapSquare(i) =>
      var tapped := Card.Tap(app.squares, i);
      if tapped.None? then app
      else
        var id := tapped.value;
        var timers := if Board.StartsVerification(app.squares, id) then app.pending + multiset{id} else app.pending;
        app.(squares := Board.Click(app.squares, id), pending := timers)
    case VerificationDone(id) =>
      app.(squares := Board.CompleteVerification(app.squares, id), pending := app.pending - multiset{id})
    case CheckWin =>
      if Win.GridOverflow(app.squares) then app
      else app.(screen := if Win.Bingo(app.squares) then Winner else Result)
    case ContinuePlaying => app.(screen := Game)
  }

  /** The screen changes the page can make; every other change is impossible. */
  predicate Move(from: Screen, to: Screen) {
    || (from == Dashboard && to == Payment)
    || (from == Payment && to == Game)
    || (from == Game && to == Winner)
    || (from == Game && to == Result)
    || (from == Result && to == Game)
  }

  /**
    Every step either keeps the screen or makes one of the listed moves; the
    winner screen is reached only by checking a card that has a bingo, and
    the result screen only by checking one that has none (a check that
    throws changes nothing).
   */
  lemma StepMovesScreen(app: App, e: Event)
    requires Enabled(app, e)
    ensures var next := Step(app, e);
      next.screen == app.screen || Move(app.screen, next.screen)
    ensures e == JoinGame ==> Step(app, e).screen == Payment
    ensures e == Pay ==> Step(app, e).screen == Game
    ensures e == ContinuePlaying ==> Step(app, e).screen == Game
    ensures var next := Step(app, e);
      next.screen == Winner && app.screen != Winner <==> e == CheckWin && !Win.GridOverflow(app.squares) && Win.Bingo(app.squares)
    ensures var next := Step(app, e);
      next.screen == Result && app.screen != Result <==> e == CheckWin && !Win.GridOverflow(app.squares) && !Win.Bingo(app.squares)
  {
  }

  /** On the winner screen only a pending verification can still change anything. */
  lemma WinnerIsFinal(app: App, e: Event)
    requires app.screen == Winner && Enabled(app, e)
    ensures e.VerificationDone? && Step(app, e).screen == Winner
  {
  }

  /**
    What stays true of the page: 25 squares, the free square verified and its
    id not shared, and a running completion for every square shown as
    verifying.
   */
  predicate Valid(app: App) {
    && |app.squares| == 25
    && app.squares[FreeSpace].state == Verified
    && (forall i :: 0 <= i < 25 && i != FreeSpace ==> app.squares[i].id != app.squares[FreeSpace].id)
    && (forall i :: 0 <= i < 25 && app.squares[i].state == Verifying ==> app.squares[i].id in app.pending)
  }

  lemma InitialValid()
    ensures Valid(Initial)
  {
    Board.InitialBoardShape();
  }

  lemma StepPreservesValid(app: App, e: Event)
    requires Valid(app) && Enabled(app, e)
    ensures Valid(Step(app, e))
  {
    var next := Step(app, e);
    match e
    case TapSquare(i) =>
      var tapped := Card.Tap(app.squares, i);
      if tapped.Some? {
        var id := tapped.value;
        assert i != FreeSpace && app.squares[i].id == id;
        assert next.squares[FreeSpace] == app.squares[FreeSpace];
        forall k | 0 <= k < 25 && next.squares[k].state == Verifying
          ensures next.squares[k].id in next.pending
        {
          if app.squares[k].state == Selected {
            assert Board.StartsVerification(app.squares, id);
          }
        }
      }
    case VerificationDone(id) =>
      forall k | 0 <= k < 25 && next.squares[k].state == Verifying
        ensures next.squares[k].id in next.pending
      {
        assert app.squares[k].id != id;
      }
    case _ =>
  }

  /** A verified square stays verified, whatever happens next. */
  lemma VerifiedStaysVerified(app: App, e: Event, k: nat)
    requires Enabled(app, e) && k < |app.squares| && app.squares[k].state == Verified
    ensures |Step(app, e).squares| == |app.squares|
    ensures Step(app, e).squares[k].state == Verified
  {
  }

  /** The progress shown never goes down. */
  lemma ProgressNeverDecreases(app: App, e: Event)
    requires Enabled(app, e)
    ensures Board.VerifiedCount(Step(app, e).squares) >= Board.VerifiedCount(app.squares)
    ensures Board.VerifiedCount(Step(app, e).squares) <= |app.squares|
  {
    match e
    case TapSquare(i) =>
      var tapped := Card.Tap(app.squares, i);
      if tapped.Some? {
        Board.ClickKeepsVerified(app.squares, tapped.value);
      }
    case VerificationDone(id) => Board.CompletionAddsItsSquares(app.squares, id);
    case _ =>
  }

  /**
    The "Check for Win" handler, running the page's detector. When the
    detector throws, the handler stops before changing the screen.
   */
  method HandleCheckWin(app: App) returns (next: App)
    requires app.screen == Game
    ensures next == Step(app, CheckWin)
    ensures !Win.GridOverflow(app.squares) ==> (next.screen == Winner <==> Win.Bingo(app.squares))
    ensures !Win.GridOverflow(app.squares) ==> (next.screen == Result <==> !Win.Bingo(app.squares))
    ensures Win.GridOverflow(app.squares) ==> next == app
    ensures next.squares == app.squares && next.pending == app.pending
  {
    var hasWon := Win.CheckForBingo(app.squares);
    if hasWon.None? {
      next := app;
    } else if hasWon.value {
      next := app.(screen := Winner);
    } else {
      next := app.(screen := Result);
    }
  }
}

=== FILE: join.dfy ===
/**
  The paid-join endpoint `POST /api/game/join`. A request carries an x402
  payment envelope in its `X-Payment` header; the handler checks it against
  the server's configuration, asks the facilitator to verify it and then to
  settle it, and answers with one response. Every check is made in a fixed
  order and the first one that fails decides the response.

  Environment reads, JSON parsing and the two HTTP calls are inputs here: the
  configuration record, the parse outcome of the header, and what each
  facilitator call came back with. `Handled.calls` logs the facilitator calls
  the handler issued, in order.
 */
module Join {
  import opened Wrappers
  import Decimal
  import Ascii

  /** An optional string as JavaScript tests it: absent and "" are both false. */
  predicate Truthy(v: Option<string>) {
    v.Some? && v.value != ""
  }

  /** The process-wide configuration. `payTo` has no default; it may be unset. */
  datatype Config = Config(payTo: Option<string>, facilitatorUrl: string, network: string, entryFeeUsd: string)

  const DefaultFacilitatorUrl: string := "http://localhost:3005"
  const DefaultNetwork: string := "celo"
  const DefaultEntryFeeUsd: string := "0.01"

  /** `a || b` on an environment variable. */
  function OrElse(v: Option<string>, default: string): string {
    if Truthy(v) then v.value else default
  }

  /** The configuration the handler reads from its environment variables. */
  function LoadConfig(payTo: Option<string>, facilitatorUrl: Option<string>, network: Option<string>, entryFeeUsd: Option<string>): (c: Config)
    ensures c.payTo == payTo
    ensures c.facilitatorUrl != "" && c.network != "" && c.entryFeeUsd != ""
    ensures Truthy(facilitatorUrl) ==> c.facilitatorUrl == facilitatorUrl.value
    ensures !Truthy(facilitatorUrl) ==> c.facilitatorUrl == "http://localhost:3005"
    ensures Truthy(network) ==> c.network == network.value
    ensures !Truthy(network) ==> c.network == "celo"
    ensures Truthy(entryFeeUsd) ==> c.entryFeeUsd == entryFeeUsd.value
    ensures !Truthy(entryFeeUsd) ==> c.entryFeeUsd == "0.01"
    ensures !Truthy(entryFeeUsd) ==> Decimal.ExpectedAmount(c.entryFeeUsd) == Some("10000")
  {
    Decimal.DefaultFeeAmount();
    Config(payTo, OrElse(facilitatorUrl, DefaultFacilitatorUrl), OrElse(network, DefaultNetwork), OrElse(entryFeeUsd, DefaultEntryFeeUsd))
  }

  /**
    The signed transfer the client submits (EIP-3009 `transferWithAuthorization`
    fields). `to` and `value` are optional because the envelope is untrusted
    JSON: an absent or non-string field is `None`.
   */
  datatype Authorization = Authorization(
    from: Option<string>,
    to: Option<string>,
    value: Option<string>,
    validAfter: int,
    validBefore: int,
    nonce: string)

  /** The header's JSON object as parsed; `None` stands for an absent or falsy field. */
  datatype RawEnvelope = RawEnvelope(network: Option<string>, authorization: Option<Authorization>, signature: Option<string>)

  /** What `JSON.parse` made of the header. */
  datatype Parsed =
    | NotJson(reason: string)
    | JsonNull
    | Json(envelope: RawEnvelope)

  /** An envelope that passed every local check, unchanged. */
  datatype Envelope = Envelope(network: string, authorization: Authorization, signature: string)

  /** The body of both facilitator calls. */
  datatype Payload = Payload(authorization: Authorization, signature: string, network: string)

  datatype Call = Verify(payload: Payload) | Settle(payload: Payload)

  datatype VerifyData = VerifyData(valid: bool, error: Option<string>)

  datatype SettleData = SettleData(
    success: bool,
    transaction: Option<string>,
    blockNumber: Option<int>,
    explorer: Option<string>,
    payer: Option<string>,
    error: Option<string>)

  /** The status of a response the HTTP client rejects: anything outside 2xx. */
  type ErrorStatus = s: int | 300 <= s < 600 witness 500

  /**
    How one facilitator call ended: a 2xx reply (whose body may be missing),
    a refused connection, a non-2xx reply, or any other transport failure
    (timeouts included). An error reply carries its `error` text and its
    body as JSON text.
   */
  datatype Transport<T> =
    | Replied(data: Option<T>)
    | ConnRefused
    | HttpError(status: ErrorStatus, error: Option<string>, body: Option<string>)
    | OtherError

  /** The response, by what decided it. */
  datatype Outcome =
    | ConfigurationError
    | MissingPayment(price: string, network: string, payTo: string)
    | MalformedPayment(reason: string)
    | IncompletePayment
    | NetworkMismatch(expectedNetwork: string, receivedNetwork: string)
    | WrongRecipient(payTo: string)
    | AmountMismatch(expectedAmount: Option<string>, receivedAmount: Option<string>)
    | VerificationFailed(message: string, verifyDetails: Option<VerifyData>)
    | SettlementFailed(message: string, settleDetails: Option<SettleData>)
    | FacilitatorUnavailable(facilitator: string)
    | FacilitatorRejected(code: ErrorStatus, message: string, details: Option<string>)
    | InternalError
    | Joined(
        entryFee: string,
        joinedNetwork: string,
        player: Option<string>,
        transaction: Option<string>,
        blockNumber: Option<int>,
        explorer: Option<string>,
        amount: string)

  /** The HTTP status the handler answers with. */
  function StatusOf(o: Outcome): (s: int)
    ensures s == 200 <==> o.Joined?
    ensures 300 <= s < 600 <==> !o.Joined?
    ensures s == 400 <==> o.MalformedPayment? || o.IncompletePayment? || o.NetworkMismatch? || o.WrongRecipient? || o.AmountMismatch? || (o.FacilitatorRejected? && o.code == 400)
    ensures s == 402 <==> o.MissingPayment? || o.VerificationFailed? || o.SettlementFailed? || (o.FacilitatorRejected? && o.code == 402)
    ensures s == 500 <==> o.ConfigurationError? || o.InternalError? || (o.FacilitatorRejected? && o.code == 500)
    ensures s == 503 <==> o.FacilitatorUnavailable? || (o.FacilitatorRejected? && o.code == 503)
    ensures o.FacilitatorRejected? ==> s == o.code
  {
    match o
    case ConfigurationError => 500
    case MissingPayment(_, _, _) => 402
    case MalformedPayment(_) => 400
    case IncompletePayment => 400
    case NetworkMismatch(_, _) => 400
    case WrongRecipient(_) => 400
    case AmountMismatch(_, _) => 400
    case VerificationFailed(_, _) => 402
    case SettlementFailed(_, _) => 402
    case FacilitatorUnavailable(_) => 503
    case FacilitatorRejected(code, _, _) => code
    case InternalError => 500
    case Joined(_, _, _, _, _, _, _) => 200
  }

  /** The response together with the facilitator calls issued to produce it. */
  datatype Handled = Handled(outcome: Outcome, calls: seq<Call>)

  /** The three fields the handler requires are all present. */
  predicate Complete(raw: RawEnvelope) {
    Truthy(raw.network) && raw.authorization.Some? && Truthy(raw.signature)
  }

  /** `data?.error || fallback`. */
  function ErrorText(error: Option<string>, fallback: string): string {
    if Truthy(error) then error.value else fallback
  }

  /**
    The local checks, from the header to the amount. Structural checks come
    first (header present, JSON, required fields), then the business rules
    (network, recipient, amount). A `null` JSON value and a recipient that is
    not a string make the source throw, which its outer handler turns into an
    internal error.
   */
  function Validate(payTo: string, cfg: Config, header: Option<string>, parsed: Parsed): (r: Result<Envelope, Outcome>)
    ensures r.Success? ==> parsed.Json? && Complete(parsed.envelope)
    ensures r.Success? ==> r.value == Envelope(parsed.envelope.network.value, parsed.envelope.authorization.value, parsed.envelope.signature.value)
    ensures r.Success? ==> r.value.network == cfg.network
    ensures r.Success? ==> r.value.authorization.to.Some? && Ascii.EqualIgnoringCase(r.value.authorization.to.value, payTo)
    ensures r.Success? ==> Decimal.ExpectedAmount(cfg.entryFeeUsd) == r.value.authorization.value
  {
    if !Truthy(header) then
      Failure(MissingPayment(cfg.entryFeeUsd, cfg.network, payTo))
    else match parsed
      case NotJson(reason) => Failure(MalformedPayment(reason))
      case JsonNull => Failure(InternalError)
      case Json(raw) =>
        if !Complete(raw) then
          Failure(IncompletePayment)
        else if raw.network.value != cfg.network then
          Failure(NetworkMismatch(cfg.network, raw.network.value))
        else
          var auth := raw.authorization.value;
          if auth.to.None? then
            Failure(InternalError)
          else if Ascii.ToLower(auth.to.value) != Ascii.ToLower(payTo) then
            Failure(WrongRecipient(payTo))
          else
            var expected := Decimal.ExpectedAmount(cfg.entryFeeUsd);
            if auth.value.None? || expected.None? || auth.value.value != expected.value then
              Failure(AmountMismatch(expected, auth.value))
            else
              Ascii.ToLowerEqualIff(auth.to.value, payTo);
              Success(Envelope(raw.network.value, auth, raw.signature.value))
  }

  /**
    The statuses a response with a body may not have (section "null body
    status" of the WHATWG Fetch standard): building such a JSON response
    throws.
   */
  predicate NullBodyStatus(status: int) {
    status in {101, 103, 204, 205, 304}
  }

  /**
    A facilitator failure caught by the handler: unreachable, rejected, or
    anything else. A rejection is answered with the facilitator's own status
    and body, unless that status cannot carry a body; then building the
    response throws and the outer handler answers 500.
   */
  function Caught<T>(cfg: Config, t: Transport<T>): (o: Outcome)
    requires !t.Replied?
    ensures t.ConnRefused? <==> o == FacilitatorUnavailable(cfg.facilitatorUrl)
    ensures t.HttpError? && !NullBodyStatus(t.status) ==>
      o.FacilitatorRejected? && o.code == t.status && o.details == t.body
      && (Truthy(t.error) ==> o.message == t.error.value)
    ensures o == InternalError <==> t.OtherError? || (t.HttpError? && NullBodyStatus(t.status))
  {
    match t
    case ConnRefused => FacilitatorUnavailable(cfg.facilitatorUrl)
    case HttpError(status, error, body) =>
      if NullBodyStatus(status) then InternalError
      else FacilitatorRejected(status, ErrorText(error, "Failed to verify payment"), body)
    case OtherError => InternalError
  }

  /** Verify, then settle only if verification succeeded. */
  function Facilitate(cfg: Config, env: Envelope, verify: Transport<VerifyData>, settle: Transport<SettleData>): (h: Handled)
    ensures 1 <= |h.calls| <= 2
    ensures h.calls[0] == Verify(Payload(env.authorization, env.signature, env.network))
    ensures |h.calls| == 2 <==> verify.Replied? && verify.data.Some? && verify.data.value.valid
    ensures |h.calls| == 2 ==> h.calls[1] == Settle(h.calls[0].payload)
  {
    var payload := Payload(env.authorization, env.signature, env.network);
    if !verify.Replied? then
      Handled(Caught(cfg, verify), [Verify(payload)])
    else if verify.data.None? || !verify.data.value.valid then
      var message := ErrorText(if verify.data.Some? then verify.data.value.error else None, "Invalid payment signature");
      Handled(VerificationFailed(message, verify.data), [Verify(payload)])
    else
      var calls := [Verify(payload), Settle(payload)];
      if !settle.Replied? then
        Handled(Caught(cfg, settle), calls)
      else if settle.data.None? || !settle.data.value.success then
        var message := ErrorText(if settle.data.Some? then settle.data.value.error else None, "Failed to execute payment on-chain");
        Handled(SettlementFailed(message, settle.data), calls)
      else
        var s := settle.data.value;
        Handled(Joined(cfg.entryFeeUsd, cfg.network, env.authorization.from, s.transaction, s.blockNumber, s.explorer, cfg.entryFeeUsd), calls)
  }

  /** The whole handler. */
  function HandleJoin(cfg: Config, header: Option<string>, parsed: Parsed, verify: Transport<VerifyData>, settle: Transport<SettleData>): (h: Handled)
    ensures !Truthy(cfg.payTo) ==> h == Handled(ConfigurationError, [])
    ensures h.calls == [] || h.calls[0].Verify?
    ensures (exists k :: 0 <= k < |h.calls| && h.calls[k].Settle?) ==> |h.calls| == 2 && h.calls[0].Verify? && verify.Replied? && verify.data.Some? && verify.data.value.valid
    ensures h.outcome.Joined? ==> |h.calls| == 2 && verify.Replied? && settle.Replied? && settle.data.Some? && settle.data.value.success
  {
    if !Truthy(cfg.payTo) then
      Handled(ConfigurationError, [])
    else match Validate(cfg.payTo.value, cfg, header, parsed)
      case Failure(o) => Handled(o, [])
      case Success(env) => Facilitate(cfg, env, verify, settle)
  }
}

=== FILE: join_properties.dfy ===
/**
  What the join endpoint promises, stated over every input: the order of its
  checks, the response each failure gets, and that settlement only ever
  follows a successful verification.
 */
module JoinProperties {
  import opened Wrappers
  import opened Join
  import Decimal
  import Ascii

  /**
    A request the handler accepts locally, described field by field instead of
    check by check: recipient equal up to letter case, and an amount that is
    the canonical integer text of the fee in millionths.
   */
  predicate Acceptable(cfg: Config, header: Option<string>, parsed: Parsed) {
    && Truthy(cfg.payTo)
    && Truthy(header)
    && parsed.Json?
    && Complete(parsed.envelope)
    && parsed.envelope.network.value == cfg.network
    && var auth := parsed.envelope.authorization.value;
    && auth.to.Some?
    && Ascii.EqualIgnoringCase(auth.to.value, cfg.payTo.value)
    && auth.value.Some?
    && Decimal.ParseUsd(cfg.entryFeeUsd).Some?
    && Decimal.Canonical(auth.value.value)
    && Decimal.DigitsValue(auth.value.value) == Decimal.ParseUsd(cfg.entryFeeUsd).value
  }

  /** The facilitator is contacted exactly for the requests that pass every local check. */
  lemma FacilitatorCalledIffAcceptable(cfg: Config, header: Option<string>, parsed: Parsed, verify: Transport<VerifyData>, settle: Transport<SettleData>)
    ensures HandleJoin(cfg, header, parsed, verify, settle).calls != [] <==> Acceptable(cfg, header, parsed)
  {
    if Truthy(cfg.payTo) && Truthy(header) && parsed.Json? && Complete(parsed.envelope) {
      var auth := parsed.envelope.authorization.value;
      if auth.to.Some? {
        Ascii.ToLowerEqualIff(auth.to.value, cfg.payTo.value);
      }
      if auth.value.Some? && Decimal.ParseUsd(cfg.entryFeeUsd).Some? {
        Decimal.TextOfIff(auth.value.value, Decimal.ParseUsd(cfg.entryFeeUsd).value);
      }
    }
  }

  /**
    A join succeeds exactly when the request passes every local check, the
    facilitator verifies it and then settles it; the response names the payer
    as the player and the configured fee as the amount.
   */
  lemma JoinedIff(cfg: Config, header: Option<string>, parsed: Parsed, verify: Transport<VerifyData>, settle: Transport<SettleData>)
    ensures var h := HandleJoin(cfg, header, parsed, verify, settle);
      h.outcome.Joined? <==>
        && Acceptable(cfg, header, parsed)
        && verify.Replied? && verify.data.Some? && verify.data.value.valid
        && settle.Replied? && settle.data.Some? && settle.data.value.success
    ensures var h := HandleJoin(cfg, header, parsed, verify, settle);
      h.outcome.Joined? ==>
        && StatusOf(h.outcome) == 200
        && h.outcome.player == parsed.envelope.authorization.value.from
        && h.outcome.amount == cfg.entryFeeUsd
        && h.outcome.entryFee == cfg.entryFeeUsd
        && h.outcome.joinedNetwork == cfg.network
        && h.outcome.transaction == settle.data.value.transaction
        && h.outcome.blockNumber == settle.data.value.blockNumber
        && h.outcome.explorer == settle.data.value.explorer
  {
    FacilitatorCalledIffAcceptable(cfg, header, parsed, verify, settle);
  }

  /** Without a recipient address nothing else is looked at: 500 and no facilitator call. */
  lemma MissingRecipientIsConfigurationError(
    cfg: Config,
    header: Option<string>, parsed: Parsed, verify: Transport<VerifyData>, settle: Transport<SettleData>,
    header': Option<string>, parsed': Parsed, verify': Transport<VerifyData>, settle': Transport<SettleData>)
    requires !Truthy(cfg.payTo)
    ensures StatusOf(HandleJoin(cfg, header, parsed, verify, settle).outcome) == 500
    ensures HandleJoin(cfg, header, parsed, verify, settle).calls == []
    ensures HandleJoin(cfg, header, parsed, verify, settle) == HandleJoin(cfg, header', parsed', verify', settle')
  {
  }

  /** A missing header is 402 and tells the client the price, network and recipient. */
  lemma MissingHeaderIsPaymentRequired(cfg: Config, header: Option<string>, parsed: Parsed, verify: Transport<VerifyData>, settle: Transport<SettleData>)
    requires Truthy(cfg.payTo) && !Truthy(header)
    ensures var h := HandleJoin(cfg, header, parsed, verify, settle);
      && h.outcome == MissingPayment(cfg.entryFeeUsd, cfg.network, cfg.payTo.value)
      && StatusOf(h.outcome) == 402
      && h.calls == []
  {
  }

  /**
    A header that is not JSON, or an envelope without network, authorization
    or signature, is 400 before any business rule: the configured network and
    fee play no part.
   */
  lemma StructuralChecksFirst(cfg: Config, network': string, fee': string, header: Option<string>, parsed: Parsed, verify: Transport<VerifyData>, settle: Transport<SettleData>)
    requires Truthy(cfg.payTo) && Truthy(header)
    requires parsed.NotJson? || (parsed.Json? && !Complete(parsed.envelope))
    ensures var h := HandleJoin(cfg, header, parsed, verify, settle);
      && StatusOf(h.outcome) == 400
      && (parsed.NotJson? ==> h.outcome == MalformedPayment(parsed.reason))
      && (parsed.Json? ==> h.outcome == IncompletePayment)
      && h.calls == []
      && h == HandleJoin(cfg.(network := network', entryFeeUsd := fee'), header, parsed, verify, settle)
  {
  }

  /** A wrong network is 400 whatever the recipient and amount are. */
  lemma NetworkCheckedBeforeRecipientAndAmount(cfg: Config, header: Option<string>, raw: RawEnvelope, auth': Authorization, fee': string, verify: Transport<VerifyData>, settle: Transport<SettleData>)
    requires Truthy(cfg.payTo) && Truthy(header) && Complete(raw)
    requires raw.network.value != cfg.network
    ensures var h := HandleJoin(cfg, header, Json(raw), verify, settle);
      && h.outcome == NetworkMismatch(cfg.network, raw.network.value)
      && StatusOf(h.outcome) == 400
      && h.calls == []
      && h == HandleJoin(cfg.(entryFeeUsd := fee'), header, Json(raw.(authorization := Some(auth'))), verify, settle)
  {
  }

  /**
    With the right network, a recipient that differs from the configured one
    in anything but letter case is 400, and one that differs only in case
    passes on to the amount check.
   */
  lemma RecipientCaseInsensitive(cfg: Config, header: Option<string>, raw: RawEnvelope, verify: Transport<VerifyData>, settle: Transport<SettleData>)
    requires Truthy(cfg.payTo) && Truthy(header) && Complete(raw)
    requires raw.network.value == cfg.network
    requires raw.authorization.value.to.Some?
    ensures var h := HandleJoin(cfg, header, Json(raw), verify, settle);
      h.outcome.WrongRecipient? <==> !Ascii.EqualIgnoringCase(raw.authorization.value.to.value, cfg.payTo.value)
    ensures var h := HandleJoin(cfg, header, Json(raw), verify, settle);
      h.outcome.WrongRecipient? ==> StatusOf(h.outcome) == 400 && h.calls == []
  {
    Ascii.ToLowerEqualIff(raw.authorization.value.to.value, cfg.payTo.value);
  }

  /**
    With network and recipient right, the amount passes exactly when it is the
    canonical integer text of the fee in millionths; otherwise the answer is
    400 naming both amounts.
   */
  lemma AmountMustMatchFee(cfg: Config, header: Option<string>, raw: RawEnvelope, verify: Transport<VerifyData>, settle: Transport<SettleData>)
    requires Truthy(cfg.payTo) && Truthy(header) && Complete(raw)
    requires raw.network.value == cfg.network
    requires raw.authorization.value.to.Some?
    requires Ascii.EqualIgnoringCase(raw.authorization.value.to.value, cfg.payTo.value)
    ensures var h := HandleJoin(cfg, header, Json(raw), verify, settle);
      var v := raw.authorization.value.value;
      var fee := Decimal.ParseUsd(cfg.entryFeeUsd);
      !h.outcome.AmountMismatch? <==>
        v.Some? && fee.Some? && Decimal.Canonical(v.value) && Decimal.DigitsValue(v.value) == fee.value
    ensures var h := HandleJoin(cfg, header, Json(raw), verify, settle);
      h.outcome.AmountMismatch? ==>
        && StatusOf(h.outcome) == 400
        && h.outcome.expectedAmount == Decimal.ExpectedAmount(cfg.entryFeeUsd)
        && h.outcome.receivedAmount == raw.authorization.value.value
        && h.calls == []
  {
    FacilitatorCalledIffAcceptable(cfg, header, Json(raw), verify, settle);
  }

  /** With the default fee the only accepted amount is "10000". */
  lemma DefaultFeeAcceptsOnlyTenThousand(cfg: Config, header: Option<string>, raw: RawEnvelope, verify: Transport<VerifyData>, settle: Transport<SettleData>)
    requires cfg.entryFeeUsd == "0.01"
    requires Truthy(cfg.payTo) && Truthy(header) && Complete(raw)
    requires raw.network.value == cfg.network
    requires raw.authorization.value.to.Some?
    requires Ascii.EqualIgnoringCase(raw.authorization.value.to.value, cfg.payTo.value)
    ensures !HandleJoin(cfg, header, Json(raw), verify, settle).outcome.AmountMismatch? <==> raw.authorization.value.value == Some("10000")
  {
    Decimal.DefaultFeeAmount();
    var auth := raw.authorization.value;
    Ascii.ToLowerEqualIff(auth.to.value, cfg.payTo.value);
    var r := Validate(cfg.payTo.value, cfg, header, Json(raw));
    assert r.Failure? && r.error.AmountMismatch? <==> auth.value != Some("10000");
  }

  /**
    Two inputs make the handler throw before any facilitator call: a header
    that parses to JSON `null`, and a recipient that is not a string. The
    outer handler answers both with 500.
   */
  lemma ThrowsBeforeFacilitatorAreInternalErrors(cfg: Config, header: Option<string>, parsed: Parsed, verify: Transport<VerifyData>, settle: Transport<SettleData>)
    requires Truthy(cfg.payTo) && Truthy(header)
    requires || parsed.JsonNull?
             || (&& parsed.Json? && Complete(parsed.envelope)
                 && parsed.envelope.network.value == cfg.network
                 && parsed.envelope.authorization.value.to.None?)
    ensures var h := HandleJoin(cfg, header, parsed, verify, settle);
      h.outcome == InternalError && StatusOf(h.outcome) == 500 && h.calls == []
  {
  }

  /** A failed or empty verification is 402, and settlement is never requested. */
  lemma FailedVerificationNeverSettles(cfg: Config, header: Option<string>, parsed: Parsed, data: Option<VerifyData>, settle: Transport<SettleData>)
    requires Acceptable(cfg, header, parsed)
    requires data.None? || !data.value.valid
    ensures var h := HandleJoin(cfg, header, parsed, Replied(data), settle);
      && h.outcome.VerificationFailed?
      && StatusOf(h.outcome) == 402
      && |h.calls| == 1 && h.calls[0].Verify?
      && h.outcome.verifyDetails == data
      && (data.Some? && Truthy(data.value.error) ==> h.outcome.message == data.value.error.value)
  {
    FacilitatorCalledIffAcceptable(cfg, header, parsed, Replied(data), settle);
  }

  /**
    After a successful verification the same payload is settled; a failed or
    empty settlement is 402 and carries the facilitator's error text.
   */
  lemma FailedSettlementIsPaymentRequired(cfg: Config, header: Option<string>, parsed: Parsed, verify: Transport<VerifyData>, data: Option<SettleData>)
    requires Acceptable(cfg, header, parsed)
    requires verify.Replied? && verify.data.Some? && verify.data.value.valid
    requires data.None? || !data.value.success
    ensures var h := HandleJoin(cfg, header, parsed, verify, Replied(data));
      && h.outcome.SettlementFailed?
      && StatusOf(h.outcome) == 402
      && h.calls == [h.calls[0], Settle(h.calls[0].payload)]
      && h.outcome.settleDetails == data
      && (data.Some? && Truthy(data.value.error) ==> h.outcome.message == data.value.error.value)
  {
    FacilitatorCalledIffAcceptable(cfg, header, parsed, verify, Replied(data));
  }

  /**
    A call that fails in transport, verify or settle alike: a refused
    connection is 503 naming the facilitator, an error response forwards the
    facilitator's status and body (unless the status, 304, cannot carry a
    body: then 500), anything else is 500.
   */
  lemma TransportFailureMapping(cfg: Config, header: Option<string>, parsed: Parsed, verify: Transport<VerifyData>, settle: Transport<SettleData>)
    requires Acceptable(cfg, header, parsed)
    requires !verify.Replied? || (verify.data.Some? && verify.data.value.valid && !settle.Replied?)
    ensures var h := HandleJoin(cfg, header, parsed, verify, settle);
      var failed := if !verify.Replied? then Caught(cfg, verify) else Caught(cfg, settle);
      && h.outcome == failed
      && (h.outcome.FacilitatorUnavailable? ==> h.outcome.facilitator == cfg.facilitatorUrl && StatusOf(h.outcome) == 503)
      && (!verify.Replied? && verify.HttpError? ==>
            StatusOf(h.outcome) == (if verify.status == 304 then 500 else verify.status)
            && (verify.status != 304 ==> h.outcome.details == verify.body))
      && (verify.Replied? && settle.HttpError? ==>
            StatusOf(h.outcome) == (if settle.status == 304 then 500 else settle.status)
            && (settle.status != 304 ==> h.outcome.details == settle.body))
      && (!verify.Replied? && verify.OtherError? ==> StatusOf(h.outcome) == 500)
      && (verify.Replied? && settle.OtherError? ==> StatusOf(h.outcome) == 500)
      && |h.calls| == (if verify.Replied? then 2 else 1)
  {
    FacilitatorCalledIffAcceptable(cfg, header, parsed, verify, settle);
  }

  /** Refused on the verify call: 503 with the configured facilitator URL. */
  lemma VerifyRefusedIsUnavailable(cfg: Config, header: Option<string>, parsed: Parsed, settle: Transport<SettleData>)
    requires Acceptable(cfg, header, parsed)
    ensures var h := HandleJoin(cfg, header, parsed, ConnRefused, settle);
      && h.outcome == FacilitatorUnavailable(cfg.facilitatorUrl)
      && StatusOf(h.outcome) == 503
      && |h.calls| == 1
  {
    TransportFailureMapping(cfg, header, parsed, ConnRefused, settle);
  }
}

=== FILE: win.dfy ===
/**
  The win check behind the "Check for Win" button. Square `idx` of the
  row-major board sits in row `idx / 5` and column `idx % 5`, only verified
  squares count as marked, and the player has a bingo when a whole row, a
  whole column or either diagonal is marked.
 */
module Win {
  import opened Wrappers
  import opened Card
  import Board

  /** Square `i` exists and is verified. */
  predicate Marked(board: seq<Square>, i: int) {
    0 <= i < |board| && board[i].state == Verified
  }

  /** The cell in row `r` and column `c` of the 5 x 5 card is marked. */
  predicate Cell(board: seq<Square>, r: int, c: int) {
    0 <= r < 5 && 0 <= c < 5 && Marked(board, 5 * r + c)
  }

  /** Square `idx` is the cell in row `idx / 5` and column `idx % 5`. */
  lemma IndexToCell(board: seq<Square>, idx: int)
    requires 0 <= idx < 25
    ensures Marked(board, idx) <==> Cell(board, idx / 5, idx % 5)
  {
  }

  predicate RowComplete(board: seq<Square>, r: int) {
    forall c :: 0 <= c < 5 ==> Cell(board, r, c)
  }

  predicate ColumnComplete(board: seq<Square>, c: int) {
    forall r :: 0 <= r < 5 ==> Cell(board, r, c)
  }

  /** The cell of row `i` on the diagonal from top right to bottom left. */
  predicate AntiCell(board: seq<Square>, i: int) {
    Cell(board, i, 4 - i)
  }

  predicate DiagonalComplete(board: seq<Square>) {
    forall i :: 0 <= i < 5 ==> Cell(board, i, i)
  }

  predicate AntiDiagonalComplete(board: seq<Square>) {
    forall i :: 0 <= i < 5 ==> AntiCell(board, i)
  }

  /** A square beyond the 25 cells of the card is verified. */
  predicate GridOverflow(board: seq<Square>) {
    exists i :: 25 <= i < |board| && board[i].state == Verified
  }

  /** Some row, some column, or one of the two diagonals is fully marked. */
  predicate Bingo(board: seq<Square>) {
    || (exists r :: 0 <= r < 5 && RowComplete(board, r))
    || (exists c :: 0 <= c < 5 && ColumnComplete(board, c))
    || DiagonalComplete(board)
    || AntiDiagonalComplete(board)
  }

  /**
    The detector as the page runs it: fill a 5 x 5 grid from the board, then
    test the rows, the columns, the main diagonal and the anti-diagonal in
    that order, stopping at the first full one. A verified square at index
    25 or beyond has no row in the grid: writing it throws, and the check
    gives no answer (`None`).
   */
  method CheckForBingo(board: seq<Square>) returns (won: Option<bool>)
    ensures won.None? <==> GridOverflow(board)
    ensures won.Some? ==> (won.value <==> Bingo(board))
  {
    var grid: seq<seq<bool>> := seq(5, _ => seq(5, _ => false));
    var idx := 0;
    while idx < |board|
      invariant 0 <= idx <= |board|
      invariant |grid| == 5 && forall r :: 0 <= r < 5 ==> |grid[r]| == 5
      invariant forall r, c :: 0 <= r < 5 && 0 <= c < 5 ==> (grid[r][c] <==> 5 * r + c < idx && Cell(board, r, c))
      invariant forall i :: 25 <= i < idx ==> board[i].state != Verified
    {
      if board[idx].state == Verified {
        if idx >= 25 {
          return None;
        }
        var row := idx / 5;
        var col := idx % 5;
        grid := grid[row := grid[row][col := true]];
      }
      idx := idx + 1;
    }
    assert forall r, c :: 0 <= r < 5 && 0 <= c < 5 ==> (grid[r][c] <==> Cell(board, r, c));
    assert !GridOverflow(board);

    var row := 0;
    while row < 5
      invariant 0 <= row <= 5
      invariant forall r :: 0 <= r < row ==> !RowComplete(board, r)
    {
      if forall c :: 0 <= c < 5 ==> grid[row][c] {
        assert RowComplete(board, row);
        return Some(true);
      }
      row := row + 1;
    }

    var col := 0;
    while col < 5
      invariant 0 <= col <= 5
      invariant forall c :: 0 <= c < col ==> !ColumnComplete(board, c)
    {
      if forall r :: 0 <= r < 5 ==> grid[r][col] {
        assert ColumnComplete(board, col);
        return Some(true);
      }
      col := col + 1;
    }

    if forall i :: 0 <= i < 5 ==> grid[i][i] {
      return Some(true);
    }
    assert !DiagonalComplete(board) by {
      var i :| 0 <= i < 5 && !grid[i][i];
      assert !Cell(board, i, i);
    }
    if forall i :: 0 <= i < 5 ==> grid[i][4 - i] {
      assert forall i :: 0 <= i < 5 ==> AntiCell(board, i);
      return Some(true);
    }
    assert !AntiDiagonalComplete(board) by {
      var i :| 0 <= i < 5 && !grid[i][4 - i];
      assert !AntiCell(board, i);
    }
    return Some(false);
  }

  /** The squares of one line, as board indices. */
  function LineIndices(line: nat): (s: set<nat>)
    requires line < 12
    ensures |s| == 5
  {
    if line < 5 then {5 * line, 5 * line + 1, 5 * line + 2, 5 * line + 3, 5 * line + 4}
    else if line < 10 then {line - 5, line, line + 5, line + 10, line + 15}
    else if line == 10 then {0, 6, 12, 18, 24}
    else {4, 8, 12, 16, 20}
  }

  /** Every square of line `line` is verified. */
  predicate LineMarked(board: seq<Square>, line: nat)
    requires line < 12
  {
    LineIndices(line) <= Board.VerifiedSet(board)
  }

  lemma RowLine(board: seq<Square>, r: int)
    requires 0 <= r < 5 && RowComplete(board, r)
    ensures LineMarked(board, r)
  {
    assert Cell(board, r, 0) && Cell(board, r, 1) && Cell(board, r, 2) && Cell(board, r, 3) && Cell(board, r, 4);
  }

  lemma ColumnLine(board: seq<Square>, c: int)
    requires 0 <= c < 5 && ColumnComplete(board, c)
    ensures LineMarked(board, c + 5)
  {
    assert Cell(board, 0, c) && Cell(board, 1, c) && Cell(board, 2, c) && Cell(board, 3, c) && Cell(board, 4, c);
  }

  lemma DiagonalLines(board: seq<Square>)
    ensures DiagonalComplete(board) ==> LineMarked(board, 10)
    ensures AntiDiagonalComplete(board) ==> LineMarked(board, 11)
  {
    if DiagonalComplete(board) {
      assert Cell(board, 0, 0) && Cell(board, 1, 1) && Cell(board, 2, 2) && Cell(board, 3, 3) && Cell(board, 4, 4);
    }
    if AntiDiagonalComplete(board) {
      assert AntiCell(board, 0) && AntiCell(board, 1) && AntiCell(board, 2) && AntiCell(board, 3) && AntiCell(board, 4);
    }
  }

  /** A bingo marks five distinct squares. */
  lemma BingoNeedsFive(board: seq<Square>)
    requires Bingo(board)
    ensures Board.VerifiedCount(board) >= 5
  {
    var line: nat;
    if exists r :: 0 <= r < 5 && RowComplete(board, r) {
      var r :| 0 <= r < 5 && RowComplete(board, r);
      RowLine(board, r);
      line := r;
    } else if exists c :: 0 <= c < 5 && ColumnComplete(board, c) {
      var c :| 0 <= c < 5 && ColumnComplete(board, c);
      ColumnLine(board, c);
      line := c + 5;
    } else {
      DiagonalLines(board);
      line := if DiagonalComplete(board) then 10 else 11;
    }
    Board.VerifiedCountIsCardinality(board);
    SubsetCardinality(LineIndices(line), Board.VerifiedSet(board));
  }

  lemma SubsetCardinality(a: set<nat>, b: set<nat>)
    requires a <= b
    ensures |a| <= |b|
  {
    assert b == a + (b - a);
    assert a * (b - a) == {};
  }

  /** With fewer than five verified squares there is no bingo: an empty card, four in a row, the initial card. */
  lemma NoBingoBelowFive(board: seq<Square>)
    requires Board.VerifiedCount(board) < 5
    ensures !Bingo(board)
  {
    if Bingo(board) {
      BingoNeedsFive(board);
    }
  }

  /** A fresh card is not a win. */
  lemma InitialBoardNoBingo()
    ensures !Bingo(Board.InitialBoard)
  {
    Board.InitialBoardShape();
    NoBingoBelowFive(Board.InitialBoard);
  }

  /** A fully verified card is a win. */
  lemma FullBoardBingo(board: seq<Square>)
    requires |board| == 25
    requires forall i :: 0 <= i < 25 ==> board[i].state == Verified
    ensures Bingo(board)
  {
    assert RowComplete(board, 0);
  }

  /** The main diagonal alone is a win, whatever the other squares are. */
  lemma DiagonalAloneBingo(board: seq<Square>)
    requires |board| == 25
    requires forall k :: 0 <= k < 5 ==> board[6 * k].state == Verified
    ensures Bingo(board)
  {
    forall i | 0 <= i < 5
      ensures Cell(board, i, i)
    {
      assert 5 * i + i == 6 * i;
    }
  }
}

=== FILE: wrappers.dfy ===
/** Optional values and fallible results shared by the other modules. */
module Wrappers {

  datatype Option<+T> = None | Some(value: T)

  datatype Result<+R, +E> = Success(value: R) | Failure(error: E)
}
